=== FILE: README.md ===
# Notification processor: per-message pipeline

A Dafny model of the message-processing core of the incident-management
notification processor. A message delivered by Pub/Sub goes through these
steps:

1. Its bytes are decoded into a `CreateIncidentCommand` by the `CommandFactory`.
2. The command is dispatched by a `CommandDispatcher` to the handler
   providers registered for its class.
3. Each handler is created from its provider and run.
4. The subscriber callback acknowledges the message if processing succeeded
   and nacks it otherwise.

The stand-alone consumer in the repository's root `app.py` is modelled as
well. It routes a JSON `command` field to a `ping` or `echo` handler and
acknowledges or nacks in the same way.

Structure:

- `base.dfy`: Python exceptions, commands and command classes, log
  events, and the ghost `Recorder`. The recorder holds one trace of
  everything a run did: provider calls, handler calls and the lines
  written. Handler providers and handlers are abstract steps that may
  raise (`Behaviour`).
- `dispatch.dfy`: the specification of `dispatch`. `Lookup` is the
  guard. `Loop` is the provider/handler loop as a left fold. `Dispatched`
  is the whole call. The loop methods `Turn` and `RunHandlers` are shared
  by both dispatcher classes. The lemmas cover ordering, fail-fast, the
  single announcement and provider isolation.
- `dispatcher_logging.dfy`, `dispatcher_printing.dfy`: the two
  `CommandDispatcher` classes. One is in the hyphenated package and
  announces through `logger.info`. The other is in the underscored package
  and announces with `print`. Each `Dispatch` method is proved equal to
  `Dispatched` on its own announcement channel.
- `factory.dfy`: `CommandFactory.create`.
- `create_incident.dfy`: `CreateIncidentCommandHandler.handle`. An empty
  description raises `ValueError`.
- `container.dfy`: the handler map and providers of the
  dependency-injection container in `di/container.py`. Its
  `create_incident_handler` is the only provider for
  `CreateIncidentCommand`.
- `pubsub.dfy`: the message object, with counters for `ack()`/`nack()` and
  with what each call would raise. `Dispose` is the disposition rule of
  both callbacks.
- `subscriber.dfy`: `Subscriber.async_process_message` and
  `sync_callback`, and the end-to-end lemmas over the application's
  container.
- `app.dfy`: the root `app.py` routing and its callback.

The handler map of a dispatcher is a `const` field. It is the very map
passed to the constructor, and no dispatch can change it.
The model makes commands immutable values. `CreateIncidentCommand` is a
datatype constructor with the single field `description`, and every handler
receives the command exactly as it was dispatched.

Three facts about the code shape the model:

- The subscriber path parses no JSON. The command's description is the
  raw decoded text of the message.
- The empty-description check is in the handler, not in the factory, so
  it runs only after dispatch has started.
- The flow control handed to `subscribe` is the constant 100. The stored
  `max_messages` is never read.

## Model

| member | source | states |
|---|---|---|
| Dispatch.Lookup | src/notification-processor/application/commands/dispatcher.py:43-46 | A missing class and an empty tuple are both refused with `ValueError("No handlers registered for command <Name>")`; otherwise the registered, non-empty tuple is returned |
| Dispatch.Turn | src/notification-processor/application/commands/dispatcher.py:52-55 | One turn calls the provider, then `handle` on the handler it created only if the provider did not raise; the exception raised, if any, and the recorded steps are those of `StepOutcome`/`StepTrace` |
| Dispatch.RunHandlers | src/notification-processor/application/commands/dispatcher.py:50-55 | The loop over the tuple yields exactly the outcome and recorded trace of `Loop` over the whole tuple, returning at the first exception |
| Dispatch.Loop | src/notification-processor/application/commands/dispatcher.py:50-55 | The loop after n turns, as a left fold; an empty loop cannot raise. Its properties are stated by `LoopStaysFailed`, `LoopPassesIff`, `LoopCallsOnSuccess`, `LoopFailsFast` and `LoopCallsWithin` |
| Dispatch.Dispatched | src/notification-processor/application/commands/dispatcher.py:43-55 | The whole `dispatch`: it records nothing exactly when the lookup refuses the command, and then raises the lookup's ValueError. Its properties are stated by the `Dispatch*` lemmas |
| Dispatch.LoopStaysFailed | src/notification-processor/application/commands/dispatcher.py:50-55 | Once a turn has raised, later turns neither change the outcome nor record anything |
| Dispatch.LoopPassesIff | src/notification-processor/application/commands/dispatcher.py:50-55 | The loop completes exactly when every provider and every handler in it completes |
| Dispatch.LoopCallsOnSuccess | src/notification-processor/application/commands/dispatcher.py:50-55 | A completed loop called each provider exactly once in tuple order, each immediately followed by `handle` with the same command |
| Dispatch.LoopFailsFast | src/notification-processor/application/commands/dispatcher.py:50-55 | A raising loop stopped at some position k: all earlier steps completed, step k raised that very exception, and nothing after step k was called |
| Dispatch.LoopCallsWithin | src/notification-processor/application/commands/dispatcher.py:50-55 | Every recorded call is to a provider of the tuple, and every `handle` call receives the dispatched command |
| Dispatch.DispatchUnregistered | src/notification-processor/application/commands/dispatcher.py:43-46 | A missing or empty tuple raises the ValueError naming the class, and nothing is called, logged or printed |
| Dispatch.DispatchAnnouncesOnce | src/notification-processor/application/commands/dispatcher.py:45-50 | A registered dispatch first emits `Dispatching <Name> to <N> handler(s)...`, with N the tuple length, before any provider runs; it is the only line on the dispatcher's channel when handlers do not write there |
| Dispatch.SameNameIsNotSameClass | src/notification-processor/application/commands/dispatcher.py:43-46 | Handlers are found by the command's class, not its name: a class sharing its `__name__` with a registered class has none, and its dispatch raises the ValueError naming it with nothing called |
| Dispatch.DispatchCallsOnlyOwnProviders | src/notification-processor/application/commands/dispatcher.py:43 | Only providers registered under the command's own class are ever called, and every handler gets that command |
| Dispatch.DispatchSucceeds | src/notification-processor/application/commands/dispatcher.py:43-55 | `dispatch` returns normally iff the class has a non-empty tuple whose providers and handlers all complete; it then called them all once, in tuple order |
| Dispatch.DispatchFailsFast | src/notification-processor/application/commands/dispatcher.py:50-55 | A raising registered dispatch re-raises, unchanged, the exception of the first raising step; the steps before it ran in order, and nothing after it ran |
| LoggingDispatcher.CommandDispatcher.constructor | src/notification-processor/application/commands/dispatcher.py:28-29 | Stores the handler map as given and takes the logger named after the dispatcher module |
| LoggingDispatcher.CommandDispatcher.Dispatch | src/notification-processor/application/commands/dispatcher.py:42-55 | Outcome and recorded trace equal `Dispatched` with the announcement logged at info level on its own logger |
| PrintingDispatcher.CommandDispatcher.constructor | src/notification_processor/application/commands/dispatcher.py:21 | Stores the handler map as given |
| PrintingDispatcher.CommandDispatcher.Dispatch | src/notification_processor/application/commands/dispatcher.py:26-39 | Outcome and recorded trace equal `Dispatched` with the announcement printed, after a newline, on standard output |
| Factory.NewCommandFactory | src/notification_processor/application/commands/factory.py:19-23 | The registry holds the key "CreateIncident" and no other |
| Factory.Create | src/notification_processor/application/commands/factory.py:39-48 | Undecodable bytes raise the decoding error; a missing "CreateIncident" entry raises `ValueError("Unknown command type")`; otherwise the result is a `CreateIncidentCommand` whose description is the decoded text verbatim |
| Factory.CreateNeverUnknown | src/notification_processor/application/commands/factory.py:43-45 | With the constructor's registry the unknown-type error never occurs: `create` fails only on decoding and otherwise builds the incident command |
| Factory.CreateAcceptsEmpty | src/notification_processor/application/commands/factory.py:39-41 | An empty payload is not rejected by the factory: it yields a command with an empty description |
| CreateIncident.NewHandler | src/notification_processor/application/commands/create_incident.py:25-34 | The handler keeps the given configuration and the logger named after its module |
| CreateIncident.Handle | src/notification_processor/application/commands/create_incident.py:36-48 | `handle` completes iff the description is non-empty; an empty one raises `ValueError("Incident description cannot be empty.")` with no log line; success writes exactly one info line, on the handler's logger, ending with the description |
| CreateIncident.HandleIgnoresConfig | src/notification_processor/application/commands/create_incident.py:33-34 | Two handlers that differ only in configuration behave identically on every command |
| Container.HandlerProviders | src/notification_processor/di/container.py:28-32 | The `create_incident_handler` provider always creates its handler without raising |
| Container.NewAppContainer | src/notification_processor/di/container.py:38-48 | The dispatcher's handler map is `CreateIncidentCommand → (create_incident_handler,)`, and the factory is the constructor-built `CommandFactory` |
| Container.ProvidedHandlerIsCreateIncident | src/notification_processor/di/container.py:28-32 | The handler that provider creates acts as `CreateIncidentCommandHandler` over the container's configuration and logger manager |
| PubSub.Message.Ack | src/notification_processor/infra/subscriber.py:58 | `ack()` counts one acknowledgement, leaves the nack count alone, and raises what the client would raise |
| PubSub.Message.Nack | src/notification_processor/infra/subscriber.py:61 | `nack()` counts one nack, leaves the ack count alone, and raises what the client would raise |
| PubSub.Dispose | src/notification_processor/infra/subscriber.py:55-65 | Success with a completing `ack()` gives exactly one ack and nothing else; failure with a completing `nack()` gives exactly one nack and nothing else; so with neither call raising there is exactly one disposition. When the first call raises, its exception is reported, the `except` branch calls `nack()` once more, and exactly that `nack()`'s exception escapes, if any: a raising `ack()` gives both an ack and a nack, and a raising first `nack()` gives two nacks |
| PubSub.Settle | src/notification_processor/infra/subscriber.py:56-65 | The ack/nack calls made on the message, the events reported and the exception escaping are those `Dispose` prescribes |
| Subscriber.Subscriber.constructor | src/notification_processor/infra/subscriber.py:25-31 | Stores ids, container and `max_messages` as given, and takes the `infra.subscriber` logger from the container's logger manager |
| Subscriber.Subscriber.SubscribeFlowControl | src/notification_processor/infra/subscriber.py:68 | The flow control handed to `subscribe` allows 100 messages; it reads no field, so the stored `max_messages` plays no part |
| Subscriber.Processing | src/notification_processor/infra/subscriber.py:100-103 | The `try` body succeeds only when `create` returned a command; a `create` error is the outcome, with nothing recorded; after a successful `create`, it fails with nothing recorded exactly when the command's class has no handlers |
| Subscriber.Subscriber.ProcessMessage | src/notification_processor/infra/subscriber.py:99-109 | Returns true iff `create` and `dispatch` both complete, never raising; records what ran and then one debug line, "Message processed" or "Error processing message <id>: <e>" |
| Subscriber.Subscriber.SyncCallback | src/notification_processor/infra/subscriber.py:55-65 | Ack/nack counts and any escaping exception are `Dispose` of the processing result; the trace is the processing trace, the processing line, then the callback's own lines |
| Subscriber.CreateFailureSkipsDispatch | src/notification_processor/infra/subscriber.py:102-103 | When `create` raises, `dispatch` is never called and nothing is recorded |
| Subscriber.ProcessingSucceeds | src/notification_processor/infra/subscriber.py:99-106 | Processing succeeds iff `create` returns a command whose class has a non-empty tuple whose providers and handlers all complete |
| Subscriber.EndToEnd | src/notification_processor/infra/subscriber.py:99-109 | With the application's container: undecodable bytes fail before any call and are nacked; an empty payload is refused by the handler after one provider call and one `handle` call, and is nacked; any other payload creates the handler once, hands it the decoded text and is acknowledged |
| RootApp.Get | app.py:26 | `data.get("command")` raises AttributeError naming the value's type unless the JSON value is an object; a missing key reads as `None` |
| RootApp.Route | app.py:40-45 | Only the exact strings "ping" and "echo" find a handler; lists and dicts raise TypeError (unhashable); every other value, `None` included, finds none |
| RootApp.RunHandler | app.py:29-38 | Both registered handlers, `ping` and `echo`, return true whatever the parsed object holds |
| RootApp.Process | app.py:22-52 | Decode, parse, `get` and routing errors propagate as their own exceptions; an unmatched command gives false; a matched handler receives the whole parsed object and its result is returned unchanged |
| RootApp.ProcessMessage | app.py:22-55 | True iff the bytes decode, parse to a JSON object, and its "command" is exactly "ping" or "echo"; every exception becomes false |
| RootApp.SyncCallback | app.py:62-77 | Ack/nack counts and any escaping exception are `Dispose` of `ProcessMessage` |
| RootApp.ExactlyOneDisposition | app.py:68-77 | While `ack()`/`nack()` do not raise, every message gets exactly one disposition, and it is `ack` iff processing returned true |

## Left out

- Pub/Sub transport and asyncio bridging are not modelled. This covers `run_subscriber`'s subscribe, future, executor, cancel and close, the per-callback event-loop lookup or creation, and `main` in `app.py`. They are concurrency and client-library calls. The subscriber's event-loop lookup runs outside its `try` block, and that is not modelled either.
- Application lifecycle and signal handling in the two packages' `app.py` are not modelled: they are asyncio task management.
- UTF-8 decoding (RFC 3629) and `json.loads` (RFC 8259) are library routines. They are function parameters returning a result or an error reason, and are not reimplemented.
- Configuration loading (`config_manager.py`) and the logging setup (`logger_manager.py`) are environment and file I/O. The configuration is an opaque map. A logger is its name, and what it writes is the ghost trace.
- Dependency-injection wiring is left out; the model uses the handler map and handler construction of `di/container.py`. Two conflicts in the wiring are not modelled:
  - `di/container.py` hands `logger_manager` to the dispatcher of its own package, whose constructor accepts only `handlers`.
  - `config/container.py`, which the subscriber imports, builds the handler without its two constructor arguments. It also has no `logger_manager` provider, which the subscriber's constructor calls.
- PubSub.Message: what `ack()` and `nack()` raise is fixed per message, so each call on a message raises the same thing every time. After a failed first `nack()`, the `except` branch's `nack()` therefore raises that same exception again, and it escapes. A client whose `nack()` fails once and then succeeds is not modelled.
- Handlers that mutate the command are not modelled. In the program a command is a mutable object, and `dispatch` hands the same object to every handler of the tuple, so an attribute one handler assigns is seen by the later ones. In the model a command is an immutable value, so every handler receives it as dispatched and never sees a change an earlier handler made. `CreateIncidentCommandHandler.handle` never assigns to the command, so the end-to-end lemmas are unaffected.
- `BaseException` subclasses outside `Exception` are not modelled. They would pass through every `except Exception`.
- Printed output of the root `app.py` is not modelled: its emoji text, and the prints inside `ping`/`echo`, sleeps included. Its `SyncCallback` records only the ack/nack calls.
- Handlers and providers are stateless steps. What a step raises or logs depends only on the provider and the command, so a handler whose behaviour changes between calls is not modelled.
- Dispatch.DispatchAnnouncesOnce: "only one announcement on the channel" is proved under the premise that the handlers themselves write nothing on the dispatcher's channel. The dispatcher has no control over what handlers write.
- CreateIncident.Handle: a command of another class is assumed to have no `description` attribute. That gives an AttributeError; a foreign class that happens to define `description` is not modelled.
- `CommandHandler` and `Command` base classes and the package re-exports are not modelled: they have no behaviour.

=== FILE: app.dfy ===
/**
 * The stand-alone consumer in the repository's root `app.py`: the message is
 * decoded as UTF-8, parsed as JSON, and its "command" field is routed to the
 * `ping` or `echo` handler; the callback acknowledges what a handler
 * accepted and nacks everything else.
 */
module RootApp {
  import opened Wrappers
  import opened Base
  import opened PubSub

  /** The Python value `json.loads` returns. Floats are kept as their source text. */
  datatype PyJson =
    | JNull
    | JBool(b: bool)
    | JInt(i: int)
    | JFloat(text: string)
    | JString(s: string)
    | JArray(items: seq<PyJson>)
    | JObject(fields: map<string, PyJson>)

  /** `json.loads`: library code, not part of this model. It yields a value, or the reason it could not parse. */
  type JsonParser = string -> Result<PyJson, string>

  /** `type(value).__name__`. */
  function PyTypeName(v: PyJson): string {
    match v
    case JNull => "NoneType"
    case JBool(_) => "bool"
    case JInt(_) => "int"
    case JFloat(_) => "float"
    case JString(_) => "str"
    case JArray(_) => "list"
    case JObject(_) => "dict"
  }

  /** `data.get(key)`: only a dict has `get`; a missing key gives `None`. */
  function Get(data: PyJson, key: string): (r: Result<PyJson, Exception>)
    ensures r.Err? <==> !data.JObject?
    ensures r.Err? ==> r.error == AttributeError("'" + PyTypeName(data) + "' object has no attribute 'get'")
    ensures data.JObject? && key !in data.fields ==> r == Ok(JNull)
    ensures data.JObject? && key in data.fields ==> r == Ok(data.fields[key])
  {
    match data
    case JObject(fields) => Ok(if key in fields then fields[key] else JNull)
    case _ => Err(AttributeError("'" + PyTypeName(data) + "' object has no attribute 'get'"))
  }

  /** The two entries of the local `handlers` table. */
  datatype CommandHandler = HandlePing | HandleEcho

  /**
   * `handlers.get(command)`: only the exact strings "ping" and "echo" find a
   * handler; other hashable values find none, and a list or dict cannot be
   * hashed at all.
   */
  function Route(command: PyJson): (r: Result<Option<CommandHandler>, Exception>)
    ensures r == Ok(Some(HandlePing)) <==> command == JString("ping")
    ensures r == Ok(Some(HandleEcho)) <==> command == JString("echo")
    ensures r.Err? <==> command.JArray? || command.JObject?
    ensures r.Err? ==> r.error.TypeError?
  {
    match command
    case JArray(_) => Err(TypeError("unhashable type: '" + PyTypeName(command) + "'"))
    case JObject(_) => Err(TypeError("unhashable type: '" + PyTypeName(command) + "'"))
    case JString("ping") => Ok(Some(HandlePing))
    case JString("echo") => Ok(Some(HandleEcho))
    case _ => Ok(None)
  }

  /** `await handler(data)`: both handlers print, sleep, and return true. */
  function RunHandler(h: CommandHandler, data: PyJson): (r: bool)
    ensures r
  {
    match h
    case HandlePing => true
    case HandleEcho => true
  }

  /**
   * The `try` body of `async_process_message`: decode, parse, read
   * "command", route, and return what the handler returned, or false when
   * no handler matched. Each step's exception propagates out of the body.
   */
  function Process(decode: Utf8Decoder, parse: JsonParser, data: seq<byte>): (r: Result<bool, Exception>)
    ensures decode(data).Err? ==> r == Err(UnicodeDecodeError(decode(data).error))
    ensures decode(data).Ok? && parse(decode(data).value).Err? ==>
      r == Err(JsonDecodeError(parse(decode(data).value).error))
    ensures decode(data).Ok? && parse(decode(data).value).Ok? ==>
      var v := parse(decode(data).value).value;
      && (!v.JObject? ==> r == Err(AttributeError("'" + PyTypeName(v) + "' object has no attribute 'get'")))
      && (v.JObject? ==>
        var command := Get(v, "command").value;
        && (Route(command).Err? ==> r == Err(Route(command).error))
        && (Route(command) == Ok(None) ==> r == Ok(false))
        && (Route(command).Ok? && Route(command).value.Some? ==> r == Ok(RunHandler(Route(command).value.value, v))))
  {
    match decode(data)
    case Err(reason) => Err(UnicodeDecodeError(reason))
    case Ok(text) =>
      match parse(text)
      case Err(reason) => Err(JsonDecodeError(reason))
      case Ok(v) =>
        match Get(v, "command")
        case Err(e) => Err(e)
        case Ok(command) =>
          match Route(command)
          case Err(e) => Err(e)
          case Ok(None) => Ok(false)
          case Ok(Some(h)) => Ok(RunHandler(h, v))
  }

  /**
   * `async_process_message`: true exactly for a decodable, parseable JSON
   * object whose "command" is the string "ping" or "echo". Every exception
   * inside becomes false.
   */
  function ProcessMessage(decode: Utf8Decoder, parse: JsonParser, data: seq<byte>): (ok: bool)
    ensures ok <==>
      && decode(data).Ok?
      && parse(decode(data).value).Ok?
      && parse(decode(data).value).value.JObject?
      && var fields := parse(decode(data).value).value.fields;
      && "command" in fields
      && fields["command"] in {JString("ping"), JString("echo")}
  {
    match Process(decode, parse, data)
    case Ok(result) => result
    case Err(_) => false
  }

  /**
   * `sync_callback`: `ack()` when processing returned true, `nack()`
   * otherwise, and `nack()` again from the `except` branch when that call
   * raised. Only an exception from that last `nack()` escapes.
   */
  method SyncCallback(decode: Utf8Decoder, parse: JsonParser, message: Message) returns (escaped: Option<Exception>)
    modifies message
    ensures var d := Dispose(ProcessMessage(decode, parse, message.data), message.ackFailure, message.nackFailure);
      && message.acks == old(message.acks) + d.acks
      && message.nacks == old(message.nacks) + d.nacks
      && escaped == d.escaped
  {
    var success := ProcessMessage(decode, parse, message.data);
    var events;
    events, escaped := Settle(message, success);
  }

  /**
   * A well-formed `ping` or `echo` message is acknowledged once and never
   * nacked; anything else is nacked once and never acknowledged, as long as
   * `ack()` and `nack()` do not raise.
   */
  lemma ExactlyOneDisposition(decode: Utf8Decoder, parse: JsonParser, data: seq<byte>)
    ensures var d := Dispose(ProcessMessage(decode, parse, data), None, None);
      && d.acks + d.nacks == 1
      && (d.acks == 1 <==> ProcessMessage(decode, parse, data))
  {
  }
}

=== FILE: base.dfy ===
/**
 * The vocabulary shared by every part of the pipeline: Python exceptions,
 * commands and their types, handler providers as abstract fallible steps,
 * log events, and the ghost trace that records what ran.
 */
module Base {
  import opened Wrappers

  /**
   * The exceptions the pipeline raises or lets through, each with its
   * `str()`. `OtherException` is any other `Exception` subclass a provider,
   * a handler or the client library may raise, known by its class name.
   */
  datatype Exception =
    | ValueError(message: string)
    | TypeError(message: string)
    | AttributeError(message: string)
    | UnicodeDecodeError(message: string)
    | JsonDecodeError(message: string)
    | OtherException(className: string, message: string)

  /** `str(e)` as used in the f-strings of the log lines. */
  function Str(e: Exception): string {
    e.message
  }

  newtype byte = b: int | 0 <= b < 256

  /**
   * `bytes.decode('utf-8')`: library code, not part of this model. It yields
   * the text, or the reason it could not decode.
   */
  type Utf8Decoder = seq<byte> -> Result<string, string>

  /**
   * The Python class of a command. Dispatch looks handlers up by the class
   * object itself, so a class other than `CreateIncidentCommand` carries an
   * identity `id` of its own besides its `__name__`: two classes with the
   * same name but different ids are different keys.
   */
  datatype CommandType = CreateIncidentCommandType | UserCommandType(id: nat, name: string)

  /** `type(command).__name__`. */
  function TypeName(t: CommandType): string {
    match t
    case CreateIncidentCommandType => "CreateIncidentCommand"
    case UserCommandType(_, name) => name
  }

  /**
   * A command object. `CreateIncidentCommand` is the one command of the
   * application and carries exactly one field; `UserCommand` stands for any
   * other `Command` subclass (the test doubles): the identity and name of
   * its class, and some opaque data.
   */
  datatype Command =
    | CreateIncidentCommand(description: string)
    | UserCommand(classId: nat, className: string, data: string)

  function TypeOf(c: Command): CommandType {
    match c
    case CreateIncidentCommand(_) => CreateIncidentCommandType
    case UserCommand(id, name, _) => UserCommandType(id, name)
  }

  /** A handler provider, named as the dependency-injection container names it. */
  type ProviderId = string

  datatype Level = Debug | Info | Error

  /**
   * One piece of output: a structured log record, or the argument of one
   * `print` call (what reaches standard output is that text followed by the
   * newline `print` adds).
   */
  datatype LogEvent =
    | Logged(logger: string, level: Level, text: string)
    | Printed(text: string)

  /** `logger_manager.get_logger(name)`: a logger is known by its name. */
  datatype Logger = Logger(name: string)

  datatype LoggerManager = LoggerManager {
    function GetLogger(name: string): Logger {
      Logger(name)
    }
  }

  /** The two kinds of step dispatch performs: `provider()` and `handler.handle(command)`. */
  datatype Call = Provide(provider: ProviderId) | HandleCall(provider: ProviderId, command: Command)

  /** One entry of the ghost trace: a step that ran, or the lines one call emitted. */
  datatype Observation = Called(call: Call) | Emitted(lines: seq<LogEvent>)

  /** What a handler's `handle` did: whether it raised, and what it logged. */
  datatype Handled = Handled(outcome: Outcome<Exception>, log: seq<LogEvent>)

  /**
   * The behaviour of the handler providers of a registry, as abstract steps
   * that may fail: `provide(p)` is calling provider `p` (creating a handler),
   * `handle(p, c)` is calling `handle(c)` on the handler `p` created.
   */
  datatype Behaviour = Behaviour(
    provide: ProviderId -> Outcome<Exception>,
    handle: (ProviderId, Command) -> Handled)

  /** The steps recorded in a trace, in the order they ran. */
  function Calls(t: seq<Observation>): seq<Call> {
    if t == [] then []
    else Calls(t[..|t| - 1]) + (match t[|t| - 1] case Called(c) => [c] case Emitted(_) => [])
  }

  lemma {:induction false} CallsAppend(a: seq<Observation>, b: seq<Observation>)
    ensures Calls(a + b) == Calls(a) + Calls(b)
    decreases |b|
  {
    if b == [] {
      assert a + b == a;
    } else {
      var b' := b[..|b| - 1];
      assert (a + b)[..|a + b| - 1] == a + b';
      assert (a + b)[|a + b| - 1] == b[|b| - 1];
      CallsAppend(a, b');
    }
  }

  /**
   * Where the run's side effects go: the steps that ran and the lines that
   * were logged or printed, in one ghost sequence.
   */
  class Recorder {
    ghost var trace: seq<Observation>

    constructor ()
      ensures trace == []
    {
      trace := [];
    }
  }

  /** Decimal digits of `n`, as an f-string renders an `int`. */
  function Decimal(n: nat): string
    decreases n
  {
    if n < 10 then [Digit(n)] else Decimal(n / 10) + [Digit(n % 10)]
  }

  function Digit(d: nat): char
    requires d < 10
  {
    "0123456789"[d]
  }
}

=== FILE: container.dfy ===
/**
 * The dependency-injection container of the notification processor, reduced
 * to what the pipeline asks of it: the handler map given to the dispatcher,
 * what its handler providers do, and the command factory.
 */
module Container {
  import opened Wrappers
  import opened Base
  import opened Dispatch
  import opened Factory
  import opened CreateIncident

  /** The `create_incident_handler` provider. */
  const CreateIncidentHandlerProvider: ProviderId := "create_incident_handler"

  /** The `handlers` dictionary: `CreateIncidentCommand` to a one-provider tuple. */
  const Handlers: Registry := map[CreateIncidentCommandType := [CreateIncidentHandlerProvider]]

  /**
   * What a container gives the pipeline: the logger manager singleton, the handler map for
   * `command_dispatcher()`, what its providers and the handlers they create
   * do, and the `command_factory()` singleton.
   */
  datatype AppContainer = AppContainer(loggerManager: LoggerManager, handlers: Registry, providers: Behaviour, commandFactory: CommandFactory)

  function NoProviderMessage(p: ProviderId): string {
    "'Container' object has no attribute '" + p + "'"
  }

  /**
   * The providers of a container whose `create_incident_handler` builds a
   * fresh `CreateIncidentCommandHandler` from the configuration and logger
   * manager singletons; there are no other handler providers.
   */
  function HandlerProviders(config: ConfigManager, loggerManager: LoggerManager): (b: Behaviour)
    ensures b.provide(CreateIncidentHandlerProvider) == Pass
  {
    Behaviour(
      (p: ProviderId) => if p == CreateIncidentHandlerProvider then Pass else Fail(AttributeError(NoProviderMessage(p))),
      (p: ProviderId, c: Command) =>
        if p == CreateIncidentHandlerProvider then Handle(NewHandler(config, loggerManager), c)
        else Handled(Fail(AttributeError(NoProviderMessage(p))), []))
  }

  /** The application's container, built over its configuration and logger manager. */
  function NewAppContainer(config: ConfigManager, loggerManager: LoggerManager): (k: AppContainer)
    ensures k.loggerManager == loggerManager && k.handlers == Handlers
    ensures k.commandFactory == NewCommandFactory()
  {
    AppContainer(loggerManager, Handlers, HandlerProviders(config, loggerManager), NewCommandFactory())
  }

  /** The handler the container's provider creates is the `CreateIncident` handler, whatever the command. */
  lemma ProvidedHandlerIsCreateIncident(config: ConfigManager, loggerManager: LoggerManager, c: Command)
    ensures NewAppContainer(config, loggerManager).providers.handle(CreateIncidentHandlerProvider, c) ==
      Handle(NewHandler(config, loggerManager), c)
  {
  }
}

=== FILE: create_incident.dfy ===
/**
 * `CreateIncidentCommandHandler`: the one handler of the application, and
 * the only place a command is validated.
 */
module CreateIncident {
  import opened Wrappers
  import opened Base

  /** `__name__` of the handler's module, the name its logger is asked for. */
  const HandlerLoggerName := "application.commands.create_incident"

  const EmptyDescriptionMessage := "Incident description cannot be empty."

  /** The configuration handed to the handler: settings by name. `handle` never reads it. */
  datatype ConfigManager = ConfigManager(settings: map<string, string>)

  datatype CreateIncidentCommandHandler = CreateIncidentCommandHandler(configManager: ConfigManager, logger: Logger)

  /** `CreateIncidentCommandHandler(config_manager, logger_manager)`. */
  function NewHandler(config: ConfigManager, loggerManager: LoggerManager): (h: CreateIncidentCommandHandler)
    ensures h.configManager == config && h.logger.name == HandlerLoggerName
  {
    CreateIncidentCommandHandler(config, loggerManager.GetLogger(HandlerLoggerName))
  }

  function SuccessText(description: string): string {
    "Successfully created incident for customer: " + description
  }

  /** Python's message for reading `description` off a command class that has no such field. */
  function NoDescriptionMessage(className: string): string {
    "'" + className + "' object has no attribute 'description'"
  }

  /**
   * `handle(command)`: an empty description raises the ValueError, anything
   * else is logged once at info level. A command of another class has no
   * `description` to read.
   */
  function Handle(h: CreateIncidentCommandHandler, command: Command): (r: Handled)
    ensures r.outcome.Pass? <==> command.CreateIncidentCommand? && command.description != ""
    ensures command.CreateIncidentCommand? && command.description == "" ==>
      r == Handled(Fail(ValueError(EmptyDescriptionMessage)), [])
    ensures !command.CreateIncidentCommand? ==> r.outcome.Fail? && r.outcome.error.AttributeError? && r.log == []
    ensures r.outcome.Pass? ==>
      && |r.log| == 1
      && r.log[0] == Logged(h.logger.name, Info, r.log[0].text)
      && |command.description| <= |r.log[0].text|
      && r.log[0].text[|r.log[0].text| - |command.description|..] == command.description
  {
    match command
    case UserCommand(_, className, _) => Handled(Fail(AttributeError(NoDescriptionMessage(className))), [])
    case CreateIncidentCommand(description) =>
      if description == [] then Handled(Fail(ValueError(EmptyDescriptionMessage)), [])
      else Handled(Pass, [Logged(h.logger.name, Info, SuccessText(description))])
  }

  /**
   * What `handle` does depends only on the command and the logger: the
   * injected configuration plays no part.
   */
  lemma HandleIgnoresConfig(config: ConfigManager, other: ConfigManager, loggerManager: LoggerManager, command: Command)
    ensures Handle(NewHandler(config, loggerManager), command) == Handle(NewHandler(other, loggerManager), command)
  {
  }
}

=== FILE: dispatch.dfy ===
/**
 * What `CommandDispatcher.dispatch` does, as a specification shared by both
 * dispatcher classes: look up the provider tuple of the command's class,
 * refuse a missing or empty tuple, announce the handler count once, then
 * create and run each handler in tuple order, stopping at the first
 * exception and letting it through unchanged.
 */
module Dispatch {
  import opened Wrappers
  import opened Base

  /** The handler map: command class to a tuple of handler providers. */
  type Registry = map<CommandType, seq<ProviderId>>

  /** The text of the error for a missing or empty tuple. */
  function NoHandlersMessage(t: CommandType): string {
    "No handlers registered for command " + TypeName(t)
  }

  /**
   * `self._handlers.get(type(command))` followed by `if not handler_providers`:
   * an absent key and an empty tuple are both refused.
   */
  function Lookup(handlers: Registry, c: Command): (r: Result<seq<ProviderId>, Exception>)
    ensures r.Err? <==> TypeOf(c) !in handlers || handlers[TypeOf(c)] == []
    ensures r.Err? ==> r.error == ValueError(NoHandlersMessage(TypeOf(c)))
    ensures r.Ok? ==> r.value == handlers[TypeOf(c)] && |r.value| > 0
  {
    var t := TypeOf(c);
    if t !in handlers || handlers[t] == [] then Err(ValueError(NoHandlersMessage(t)))
    else Ok(handlers[t])
  }

  /** Where a dispatcher writes its announcement. */
  datatype Channel = ToLogger(name: string) | ToStdout

  function AnnouncementText(name: string, count: nat): string {
    "Dispatching " + name + " to " + Decimal(count) + " handler(s)..."
  }

  /** The one line a dispatcher emits: an info record, or a printed line (with its leading newline). */
  function Announce(ch: Channel, name: string, count: nat): LogEvent {
    match ch
    case ToLogger(logger) => Logged(logger, Info, AnnouncementText(name, count))
    case ToStdout => Printed("\n" + AnnouncementText(name, count))
  }

  /** Whether `e` was emitted on the dispatcher's own channel. */
  predicate OnChannel(e: LogEvent, ch: Channel) {
    match ch
    case ToLogger(logger) => e.Logged? && e.logger == logger
    case ToStdout => e.Printed?
  }

  /** How many of `lines` were written on channel `ch`. */
  function LinesOnChannel(lines: seq<LogEvent>, ch: Channel): nat {
    if lines == [] then 0
    else LinesOnChannel(lines[..|lines| - 1], ch) + (if OnChannel(lines[|lines| - 1], ch) then 1 else 0)
  }

  /** How many lines of a trace were written on channel `ch`. */
  function CountOnChannel(t: seq<Observation>, ch: Channel): nat {
    if t == [] then 0
    else CountOnChannel(t[..|t| - 1], ch) + (if t[|t| - 1].Emitted? then LinesOnChannel(t[|t| - 1].lines, ch) else 0)
  }

  // ---- one provider: `handler = provider()` then `handler.handle(command)` ----

  /** Both the provider and the handler it created completed without raising. */
  predicate StepPasses(p: ProviderId, b: Behaviour, c: Command) {
    b.provide(p).Pass? && b.handle(p, c).outcome.Pass?
  }

  /** What the step raised, if anything: the provider's exception, else the handler's. */
  function StepOutcome(p: ProviderId, b: Behaviour, c: Command): Outcome<Exception> {
    if b.provide(p).Fail? then b.provide(p) else b.handle(p, c).outcome
  }

  /** What the step records: the provider call, and the handler call and its log when the provider succeeded. */
  function StepTrace(p: ProviderId, b: Behaviour, c: Command): seq<Observation> {
    if b.provide(p).Fail? then [Called(Provide(p))]
    else [Called(Provide(p)), Called(HandleCall(p, c)), Emitted(b.handle(p, c).log)]
  }

  /** The steps a single provider contributes to the trace. */
  function StepCalls(p: ProviderId, b: Behaviour, c: Command): seq<Call> {
    if b.provide(p).Fail? then [Provide(p)] else [Provide(p), HandleCall(p, c)]
  }

  lemma CallsOfStep(p: ProviderId, b: Behaviour, c: Command)
    ensures Calls(StepTrace(p, b, c)) == StepCalls(p, b, c)
  {
    var one := [Called(Provide(p))];
    assert one[..0] == [];
    assert Calls(one) == [Provide(p)];
    if b.provide(p).Pass? {
      var two := [Called(Provide(p)), Called(HandleCall(p, c))];
      var three := two + [Emitted(b.handle(p, c).log)];
      assert two[..1] == one;
      assert three[..2] == two;
      assert Calls(two) == [Provide(p), HandleCall(p, c)];
      assert StepTrace(p, b, c) == three;
    }
  }

  // ---- the loop over the tuple ----

  /** The state of a dispatch loop: whether it raised, and what it recorded. */
  datatype Execution = Execution(outcome: Outcome<Exception>, trace: seq<Observation>)

  /** One more turn of the loop; a loop that has raised does nothing more. */
  function Continue(e: Execution, p: ProviderId, b: Behaviour, c: Command): Execution {
    if e.outcome.Fail? then e
    else Execution(StepOutcome(p, b, c), e.trace + StepTrace(p, b, c))
  }

  /** The steps recorded by one more turn of the loop. */
  lemma CallsOfContinue(e: Execution, p: ProviderId, b: Behaviour, c: Command)
    ensures Calls(Continue(e, p, b, c).trace) ==
      Calls(e.trace) + (if e.outcome.Pass? then StepCalls(p, b, c) else [])
  {
    if e.outcome.Pass? {
      CallsAppend(e.trace, StepTrace(p, b, c));
      CallsOfStep(p, b, c);
    } else {
      assert Calls(e.trace) + [] == Calls(e.trace);
    }
  }

  /**
   * `for provider in handler_providers: provider().handle(command)` after
   * its first `n` turns, providers taken in tuple order.
   */
  ghost function Loop(ps: seq<ProviderId>, n: nat, b: Behaviour, c: Command): (r: Execution)
    requires n <= |ps|
    ensures r.outcome.Fail? ==> n > 0
    decreases n
  {
    if n == 0 then Execution(Pass, [])
    else Continue(Loop(ps, n - 1, b, c), ps[n - 1], b, c)
  }

  /** The whole of `dispatch`, with the announcement on channel `ch`. */
  ghost function Dispatched(handlers: Registry, b: Behaviour, c: Command, ch: Channel): (r: Execution)
    ensures r.trace == [] <==> Lookup(handlers, c).Err?
    ensures Lookup(handlers, c).Err? ==> r.outcome == Fail(Lookup(handlers, c).error)
  {
    match Lookup(handlers, c)
    case Err(e) => Execution(Fail(e), [])
    case Ok(ps) =>
      var r := Loop(ps, |ps|, b, c);
      Execution(r.outcome, [Emitted([Announce(ch, TypeName(TypeOf(c)), |ps|)])] + r.trace)
  }

  /** Once the loop has raised, no later turn changes anything. */
  lemma {:induction false} LoopStaysFailed(ps: seq<ProviderId>, k: nat, n: nat, b: Behaviour, c: Command)
    requires k <= n <= |ps|
    requires Loop(ps, k, b, c).outcome.Fail?
    ensures Loop(ps, n, b, c) == Loop(ps, k, b, c)
    decreases n
  {
    if n > k {
      LoopStaysFailed(ps, k, n - 1, b, c);
    }
  }

  /** The first `n` turns complete without raising exactly when every provider and every handler among them does. */
  lemma {:induction false} LoopPassesIff(ps: seq<ProviderId>, n: nat, b: Behaviour, c: Command)
    requires n <= |ps|
    ensures Loop(ps, n, b, c).outcome.Pass? <==> forall i :: 0 <= i < n ==> StepPasses(ps[i], b, c)
    decreases n
  {
    if n > 0 {
      LoopPassesIff(ps, n - 1, b, c);
    }
  }

  /**
   * `cs` is one provider call and then one `handle` call for each of the
   * first `n` positions of the tuple, in tuple order, every handler receiving
   * the same command `c`.
   */
  predicate InTupleOrder(cs: seq<Call>, ps: seq<ProviderId>, n: nat, c: Command)
    requires n <= |ps|
  {
    && |cs| == 2 * n
    && forall i :: 0 <= i < n ==> cs[2 * i] == Provide(ps[i]) && cs[2 * i + 1] == HandleCall(ps[i], c)
  }

  /**
   * Turns that complete call every provider exactly once, in tuple order,
   * and hand the very same command to each handler right after its provider.
   */
  lemma {:induction false} LoopCallsOnSuccess(ps: seq<ProviderId>, n: nat, b: Behaviour, c: Command)
    requires n <= |ps|
    requires Loop(ps, n, b, c).outcome.Pass?
    ensures InTupleOrder(Calls(Loop(ps, n, b, c).trace), ps, n, c)
    decreases n
  {
    if n > 0 {
      var prev := Loop(ps, n - 1, b, c);
      assert prev.outcome.Pass?;
      LoopCallsOnSuccess(ps, n - 1, b, c);
      CallsOfContinue(prev, ps[n - 1], b, c);
      var before := Calls(prev.trace);
      var cs := Calls(Loop(ps, n, b, c).trace);
      assert cs == before + [Provide(ps[n - 1]), HandleCall(ps[n - 1], c)];
      forall i | 0 <= i < n
        ensures cs[2 * i] == Provide(ps[i]) && cs[2 * i + 1] == HandleCall(ps[i], c)
      {
        if i < n - 1 {
          assert cs[2 * i] == before[2 * i] && cs[2 * i + 1] == before[2 * i + 1];
        }
      }
    }
  }

  /**
   * Fail-fast: turns that raise stopped at some position `k`. Everything
   * before `k` completed, the step at `k` raised, the loop raises that very
   * exception, and nothing after `k` was called: the recorded steps are those
   * of the completed turns followed by the failing step's own.
   */
  lemma {:induction false} LoopFailsFast(ps: seq<ProviderId>, n: nat, b: Behaviour, c: Command)
    requires n <= |ps|
    requires Loop(ps, n, b, c).outcome.Fail?
    ensures exists k :: (0 <= k < n &&
      (forall i :: 0 <= i < k ==> StepPasses(ps[i], b, c)) &&
      !StepPasses(ps[k], b, c) &&
      Loop(ps, n, b, c).outcome == StepOutcome(ps[k], b, c) &&
      Loop(ps, k, b, c).outcome.Pass? &&
      Calls(Loop(ps, n, b, c).trace) == Calls(Loop(ps, k, b, c).trace) + StepCalls(ps[k], b, c))
    decreases n
  {
    var prev := Loop(ps, n - 1, b, c);
    if prev.outcome.Fail? {
      assert Loop(ps, n, b, c) == prev;
      LoopFailsFast(ps, n - 1, b, c);
    } else {
      LoopPassesIff(ps, n - 1, b, c);
      CallsOfContinue(prev, ps[n - 1], b, c);
      var k := n - 1;
      assert !StepPasses(ps[k], b, c);
      assert Loop(ps, n, b, c).outcome == StepOutcome(ps[k], b, c);
      assert Calls(Loop(ps, n, b, c).trace) == Calls(Loop(ps, k, b, c).trace) + StepCalls(ps[k], b, c);
    }
  }

  /** Every recorded step belongs to a provider of the tuple, and every handler call carries the dispatched command. */
  lemma {:induction false} LoopCallsWithin(ps: seq<ProviderId>, n: nat, b: Behaviour, c: Command)
    requires n <= |ps|
    ensures forall call :: call in Calls(Loop(ps, n, b, c).trace) ==>
      call.provider in ps && (call.HandleCall? ==> call.command == c)
    decreases n
  {
    if n > 0 {
      var prev := Loop(ps, n - 1, b, c);
      LoopCallsWithin(ps, n - 1, b, c);
      CallsOfContinue(prev, ps[n - 1], b, c);
      var extra := if prev.outcome.Pass? then StepCalls(ps[n - 1], b, c) else [];
      forall call | call in Calls(Loop(ps, n, b, c).trace)
        ensures call.provider in ps && (call.HandleCall? ==> call.command == c)
      {
        if call !in Calls(prev.trace) {
          assert call in extra;
        }
      }
    }
  }

  /**
   * One turn of the loop: call the provider, then hand the command to the
   * handler it returned. Outcome and recorded trace are those of one step.
   */
  method Turn(p: ProviderId, command: Command, b: Behaviour, out: Recorder) returns (outcome: Outcome<Exception>)
    modifies out
    ensures outcome == StepOutcome(p, b, command)
    ensures out.trace == old(out.trace) + StepTrace(p, b, command)
  {
    out.trace := out.trace + [Called(Provide(p))];
    var created := b.provide(p);
    if created.Fail? {
      return created;
    }
    out.trace := out.trace + [Called(HandleCall(p, command))];
    var handled := b.handle(p, command);
    out.trace := out.trace + [Emitted(handled.log)];
    outcome := handled.outcome;
  }

  /**
   * The `for provider in handler_providers` loop: each provider is called and
   * the handler it returns is given the command, in tuple order, stopping at
   * the first exception, which propagates. Outcome and recorded trace are
   * those of `Loop` over the whole tuple.
   */
  method RunHandlers(providers: seq<ProviderId>, command: Command, b: Behaviour, out: Recorder)
    returns (outcome: Outcome<Exception>)
    modifies out
    ensures outcome == Loop(providers, |providers|, b, command).outcome
    ensures out.trace == old(out.trace) + Loop(providers, |providers|, b, command).trace
  {
    ghost var start := out.trace;
    var i := 0;
    while i < |providers|
      invariant 0 <= i <= |providers|
      invariant Loop(providers, i, b, command).outcome == Pass
      invariant out.trace == start + Loop(providers, i, b, command).trace
    {
      outcome := Turn(providers[i], command, b, out);
      if outcome.Fail? {
        LoopStaysFailed(providers, i + 1, |providers|, b, command);
        return;
      }
      i := i + 1;
    }
    outcome := Pass;
  }

  /** A step whose handler stays off the dispatcher's channel adds nothing to that channel. */
  lemma CountOfStep(p: ProviderId, b: Behaviour, c: Command, ch: Channel)
    requires LinesOnChannel(b.handle(p, c).log, ch) == 0
    ensures CountOnChannel(StepTrace(p, b, c), ch) == 0
  {
    var one := [Called(Provide(p))];
    assert one[..0] == [];
    assert CountOnChannel(one, ch) == 0;
    if b.provide(p).Pass? {
      var two := [Called(Provide(p)), Called(HandleCall(p, c))];
      var three := two + [Emitted(b.handle(p, c).log)];
      assert two[..1] == one;
      assert CountOnChannel(two, ch) == 0;
      assert three[..2] == two;
      assert CountOnChannel(three, ch) == CountOnChannel(two, ch) + LinesOnChannel(b.handle(p, c).log, ch);
      assert StepTrace(p, b, c) == three;
    }
  }

  /** Handler logs that never use the dispatcher's channel leave that channel's count at zero. */
  lemma {:induction false} LoopQuietOnChannel(ps: seq<ProviderId>, n: nat, b: Behaviour, c: Command, ch: Channel)
    requires n <= |ps|
    requires forall i :: 0 <= i < |ps| ==> LinesOnChannel(b.handle(ps[i], c).log, ch) == 0
    ensures CountOnChannel(Loop(ps, n, b, c).trace, ch) == 0
    decreases n
  {
    if n > 0 {
      var prev := Loop(ps, n - 1, b, c);
      LoopQuietOnChannel(ps, n - 1, b, c, ch);
      if prev.outcome.Pass? {
        CountAppend(prev.trace, StepTrace(ps[n - 1], b, c), ch);
        CountOfStep(ps[n - 1], b, c, ch);
      }
    }
  }

  lemma {:induction false} CountAppend(a: seq<Observation>, b: seq<Observation>, ch: Channel)
    ensures CountOnChannel(a + b, ch) == CountOnChannel(a, ch) + CountOnChannel(b, ch)
    decreases |b|
  {
    if b == [] {
      assert a + b == a;
    } else {
      var b' := b[..|b| - 1];
      assert (a + b)[..|a + b| - 1] == a + b';
      assert (a + b)[|a + b| - 1] == b[|b| - 1];
      CountAppend(a, b', ch);
    }
  }

  // ---- properties of a whole dispatch ----

  /** A missing class or an empty tuple raises the ValueError naming the class, and nothing is called or emitted. */
  lemma DispatchUnregistered(handlers: Registry, b: Behaviour, c: Command, ch: Channel)
    requires TypeOf(c) !in handlers || handlers[TypeOf(c)] == []
    ensures Dispatched(handlers, b, c, ch) == Execution(Fail(ValueError(NoHandlersMessage(TypeOf(c)))), [])
  {
  }

  /**
   * The lookup is by class, not by name: a class that merely shares its
   * `__name__` with a registered class has no handlers, and its dispatch
   * raises the ValueError naming it without calling anything.
   */
  lemma SameNameIsNotSameClass(id: nat, other: nat, name: string, ps: seq<ProviderId>, data: string, b: Behaviour, ch: Channel)
    requires id != other
    ensures var handlers := map[UserCommandType(id, name) := ps];
      Dispatched(handlers, b, UserCommand(other, name, data), ch) ==
        Execution(Fail(ValueError("No handlers registered for command " + name)), [])
  {
  }

  /**
   * A registered class is announced first, before any provider runs, with
   * the tuple's length as the handler count; when the handlers themselves do
   * not write on the dispatcher's channel, it is the only line there.
   */
  lemma DispatchAnnouncesOnce(handlers: Registry, b: Behaviour, c: Command, ch: Channel)
    requires TypeOf(c) in handlers && handlers[TypeOf(c)] != []
    requires forall i :: 0 <= i < |handlers[TypeOf(c)]| ==>
      LinesOnChannel(b.handle(handlers[TypeOf(c)][i], c).log, ch) == 0
    ensures Dispatched(handlers, b, c, ch).trace[0] ==
      Emitted([Announce(ch, TypeName(TypeOf(c)), |handlers[TypeOf(c)]|)])
    ensures CountOnChannel(Dispatched(handlers, b, c, ch).trace, ch) == 1
  {
    var ps := handlers[TypeOf(c)];
    var head := [Emitted([Announce(ch, TypeName(TypeOf(c)), |ps|)])];
    LoopQuietOnChannel(ps, |ps|, b, c, ch);
    CountAppend(head, Loop(ps, |ps|, b, c).trace, ch);
    var line := [Announce(ch, TypeName(TypeOf(c)), |ps|)];
    assert line[..0] == [];
    assert OnChannel(line[0], ch);
    assert LinesOnChannel(line, ch) == 1;
    assert head[..0] == [];
    assert CountOnChannel(head, ch) == 1;
  }

  /**
   * Only the providers registered for the command's own class are called, and
   * every handler receives that command: providers registered only under
   * other classes never run.
   */
  lemma DispatchCallsOnlyOwnProviders(handlers: Registry, b: Behaviour, c: Command, ch: Channel)
    ensures forall call :: call in Calls(Dispatched(handlers, b, c, ch).trace) ==>
      TypeOf(c) in handlers && call.provider in handlers[TypeOf(c)] &&
      (call.HandleCall? ==> call.command == c)
  {
    match Lookup(handlers, c)
    case Err(_) =>
    case Ok(ps) =>
      var head := [Emitted([Announce(ch, TypeName(TypeOf(c)), |ps|)])];
      LoopCallsWithin(ps, |ps|, b, c);
      CallsAppend(head, Loop(ps, |ps|, b, c).trace);
      assert head[..0] == [];
  }

  /** The announcement records no call, so a registered dispatch calls exactly what its loop calls. */
  lemma CallsOfDispatched(handlers: Registry, b: Behaviour, c: Command, ch: Channel)
    requires TypeOf(c) in handlers && handlers[TypeOf(c)] != []
    ensures Calls(Dispatched(handlers, b, c, ch).trace) ==
      Calls(Loop(handlers[TypeOf(c)], |handlers[TypeOf(c)]|, b, c).trace)
  {
    var ps := handlers[TypeOf(c)];
    var head := [Emitted([Announce(ch, TypeName(TypeOf(c)), |ps|)])];
    CallsAppend(head, Loop(ps, |ps|, b, c).trace);
    assert head[..0] == [];
  }

  /**
   * `dispatch` returns normally exactly when the class has a non-empty tuple
   * and every provider and every handler of it completes; it then called
   * each provider once, in tuple order, each followed by its handler on the
   * very same command.
   */
  lemma DispatchSucceeds(handlers: Registry, b: Behaviour, c: Command, ch: Channel)
    ensures Dispatched(handlers, b, c, ch).outcome.Pass? <==>
      TypeOf(c) in handlers && handlers[TypeOf(c)] != [] &&
      forall i :: 0 <= i < |handlers[TypeOf(c)]| ==> StepPasses(handlers[TypeOf(c)][i], b, c)
    ensures Dispatched(handlers, b, c, ch).outcome.Pass? ==>
      InTupleOrder(Calls(Dispatched(handlers, b, c, ch).trace), handlers[TypeOf(c)], |handlers[TypeOf(c)]|, c)
  {
    if TypeOf(c) in handlers && handlers[TypeOf(c)] != [] {
      var ps := handlers[TypeOf(c)];
      LoopPassesIff(ps, |ps|, b, c);
      CallsOfDispatched(handlers, b, c, ch);
      if Loop(ps, |ps|, b, c).outcome.Pass? {
        LoopCallsOnSuccess(ps, |ps|, b, c);
      }
    }
  }

  /**
   * Fail-fast for a whole dispatch: when a registered dispatch raises, there
   * is a position `k` such that every earlier provider and handler ran in
   * order and completed, the step at `k` raised, `dispatch` raises that same
   * exception unchanged, and nothing after the failing call ran.
   */
  lemma DispatchFailsFast(handlers: Registry, b: Behaviour, c: Command, ch: Channel)
    requires TypeOf(c) in handlers && handlers[TypeOf(c)] != []
    requires Dispatched(handlers, b, c, ch).outcome.Fail?
    ensures exists k :: (0 <= k < |handlers[TypeOf(c)]| &&
      (forall i :: 0 <= i < k ==> StepPasses(handlers[TypeOf(c)][i], b, c)) &&
      !StepPasses(handlers[TypeOf(c)][k], b, c) &&
      Dispatched(handlers, b, c, ch).outcome == StepOutcome(handlers[TypeOf(c)][k], b, c) &&
      InTupleOrder(Calls(Loop(handlers[TypeOf(c)], k, b, c).trace), handlers[TypeOf(c)], k, c) &&
      Calls(Dispatched(handlers, b, c, ch).trace) ==
        Calls(Loop(handlers[TypeOf(c)], k, b, c).trace) + StepCalls(handlers[TypeOf(c)][k], b, c))
  {
    var ps := handlers[TypeOf(c)];
    LoopFailsFast(ps, |ps|, b, c);
    CallsOfDispatched(handlers, b, c, ch);
    var k :| (0 <= k < |ps| &&
      (forall i :: 0 <= i < k ==> StepPasses(ps[i], b, c)) &&
      !StepPasses(ps[k], b, c) &&
      Loop(ps, |ps|, b, c).outcome == StepOutcome(ps[k], b, c) &&
      Loop(ps, k, b, c).outcome.Pass? &&
      Calls(Loop(ps, |ps|, b, c).trace) == Calls(Loop(ps, k, b, c).trace) + StepCalls(ps[k], b, c));
    LoopCallsOnSuccess(ps, k, b, c);
  }
}

=== FILE: dispatcher_logging.dfy ===
/**
 * `CommandDispatcher` of the hyphenated package: built from a logger manager
 * and the handler map, it announces each dispatch through `logger.info`.
 */
module LoggingDispatcher {
  import opened Wrappers
  import opened Base
  import opened Dispatch

  /** `__name__` of the dispatcher module, the name its logger is asked for. */
  const DispatcherLoggerName := "application.commands.dispatcher"

  class CommandDispatcher {
    /** `self._handlers`: set once, and only read afterwards. */
    const handlers: Registry
    const logger: Logger

    /** Stores the map as given and takes the module's logger. */
    constructor (loggerManager: LoggerManager, handlers: Registry)
      ensures this.handlers == handlers
      ensures logger == Logger(DispatcherLoggerName)
    {
      this.handlers := handlers;
      logger := loggerManager.GetLogger(DispatcherLoggerName);
    }

    /**
     * Looks up the command's providers, raises for a missing or empty tuple,
     * logs the handler count, then runs provider and handler one after the
     * other, returning at the first exception. The outcome and everything
     * recorded are those of the dispatch specification.
     */
    method Dispatch(command: Command, b: Behaviour, out: Recorder) returns (outcome: Outcome<Exception>)
      modifies out
      ensures outcome == Dispatched(handlers, b, command, ToLogger(logger.name)).outcome
      ensures out.trace == old(out.trace) + Dispatched(handlers, b, command, ToLogger(logger.name)).trace
    {
      var found := Lookup(handlers, command);
      if found.Err? {
        return Fail(found.error);
      }
      var providers := found.value;
      var line := Logged(logger.name, Info, AnnouncementText(TypeName(TypeOf(command)), |providers|));
      out.trace := out.trace + [Emitted([line])];
      outcome := RunHandlers(providers, command, b, out);
    }
  }
}

=== FILE: dispatcher_printing.dfy ===
/**
 * `CommandDispatcher` of the underscored package: built from the handler map
 * alone, it announces each dispatch with `print` on standard output.
 */
module PrintingDispatcher {
  import opened Wrappers
  import opened Base
  import opened Dispatch

  class CommandDispatcher {
    /** `self._handlers`: set once, and only read afterwards. */
    const handlers: Registry

    /** Stores the map as given. */
    constructor (handlers: Registry)
      ensures this.handlers == handlers
    {
      this.handlers := handlers;
    }

    /**
     * Looks up the command's providers, raises for a missing or empty tuple,
     * prints the handler count after a blank line, then runs provider and
     * handler one after the other, returning at the first exception. The
     * outcome and everything recorded are those of the dispatch specification.
     */
    method Dispatch(command: Command, b: Behaviour, out: Recorder) returns (outcome: Outcome<Exception>)
      modifies out
      ensures outcome == Dispatched(handlers, b, command, ToStdout).outcome
      ensures out.trace == old(out.trace) + Dispatched(handlers, b, command, ToStdout).trace
    {
      var found := Lookup(handlers, command);
      if found.Err? {
        return Fail(found.error);
      }
      var providers := found.value;
      var line := Printed("\n" + AnnouncementText(TypeName(TypeOf(command)), |providers|));
      out.trace := out.trace + [Emitted([line])];
      outcome := RunHandlers(providers, command, b, out);
    }
  }
}

=== FILE: factory.dfy ===
/**
 * `CommandFactory`: turns the bytes of a message into a command. The
 * registry is fixed when the factory is built, and `create` always asks it
 * for the "CreateIncident" class, whatever the payload says.
 */
module Factory {
  import opened Wrappers
  import opened Base

  /** The command classes a factory can instantiate. */
  datatype CommandClass = CreateIncidentCommandClass

  /** `self._commands`: command name to command class. */
  datatype CommandFactory = CommandFactory(commands: map<string, CommandClass>)

  /** The one key `create` ever looks up. */
  const CreateIncidentKey := "CreateIncident"

  const UnknownCommandMessage := "Unknown command type"

  /** `CommandFactory()`: the registry holds "CreateIncident" and nothing else. */
  function NewCommandFactory(): (f: CommandFactory)
    ensures CreateIncidentKey in f.commands && f.commands.Keys == {CreateIncidentKey}
  {
    CommandFactory(map[CreateIncidentKey := CreateIncidentCommandClass])
  }

  /** `command_class(**payload)` with the payload `{"description": text}`. */
  function Instantiate(cls: CommandClass, description: string): Command {
    match cls
    case CreateIncidentCommandClass => CreateIncidentCommand(description)
  }

  /**
   * `create(message)`: decode the bytes as UTF-8 (a decoding error
   * propagates), then look up "CreateIncident" (raising when it is absent),
   * then build the command with the decoded text as its description.
   */
  function Create(f: CommandFactory, decode: Utf8Decoder, data: seq<byte>): (r: Result<Command, Exception>)
    ensures decode(data).Err? ==> r == Err(UnicodeDecodeError(decode(data).error))
    ensures decode(data).Ok? && CreateIncidentKey !in f.commands ==> r == Err(ValueError(UnknownCommandMessage))
    ensures r.Ok? <==> decode(data).Ok? && CreateIncidentKey in f.commands
    ensures r.Ok? ==> r.value.CreateIncidentCommand? && r.value.description == decode(data).value
  {
    match decode(data)
    case Err(reason) => Err(UnicodeDecodeError(reason))
    case Ok(text) =>
      if CreateIncidentKey !in f.commands then Err(ValueError(UnknownCommandMessage))
      else Ok(Instantiate(f.commands[CreateIncidentKey], text))
  }

  /**
   * With the registry built by the constructor the "Unknown command type"
   * branch is unreachable: the factory fails only when decoding fails, and
   * otherwise always builds a `CreateIncidentCommand` carrying the decoded
   * text verbatim.
   */
  lemma CreateNeverUnknown(decode: Utf8Decoder, data: seq<byte>)
    ensures Create(NewCommandFactory(), decode, data) != Err(ValueError(UnknownCommandMessage))
    ensures Create(NewCommandFactory(), decode, data) ==
      match decode(data)
      case Ok(text) => Ok(CreateIncidentCommand(text))
      case Err(reason) => Err(UnicodeDecodeError(reason))
  {
  }

  /**
   * The factory does not reject an empty payload: bytes that decode to the
   * empty string yield a command whose description is empty.
   */
  lemma CreateAcceptsEmpty(decode: Utf8Decoder, data: seq<byte>)
    requires decode(data) == Ok("")
    ensures Create(NewCommandFactory(), decode, data) == Ok(CreateIncidentCommand(""))
  {
  }
}

=== FILE: pubsub.dfy ===
/**
 * A received Pub/Sub message as the callbacks see it, and what a callback's
 * `try`/`except` around `ack()`/`nack()` does to it.
 */
module PubSub {
  import opened Wrappers
  import opened Base

  /**
   * A message: its id and bytes, and counters of the `ack()` and `nack()`
   * calls made on it. The client library may raise from either call; what it
   * would raise is fixed per message, so callers see it as data.
   */
  class Message {
    const messageId: string
    const data: seq<byte>
    const ackFailure: Option<Exception>
    const nackFailure: Option<Exception>
    var acks: nat
    var nacks: nat

    constructor (messageId: string, data: seq<byte>, ackFailure: Option<Exception>, nackFailure: Option<Exception>)
      ensures this.messageId == messageId && this.data == data
      ensures this.ackFailure == ackFailure && this.nackFailure == nackFailure
      ensures acks == 0 && nacks == 0
    {
      this.messageId := messageId;
      this.data := data;
      this.ackFailure := ackFailure;
      this.nackFailure := nackFailure;
      acks := 0;
      nacks := 0;
    }

    /** `message.ack()`: the call is made, and may raise. */
    method Ack() returns (raised: Option<Exception>)
      modifies this
      ensures acks == old(acks) + 1 && nacks == old(nacks)
      ensures raised == ackFailure
    {
      acks := acks + 1;
      raised := ackFailure;
    }

    /** `message.nack()`: the call is made, and may raise. */
    method Nack() returns (raised: Option<Exception>)
      modifies this
      ensures nacks == old(nacks) + 1 && acks == old(acks)
      ensures raised == nackFailure
    {
      nacks := nacks + 1;
      raised := nackFailure;
    }
  }

  /** What a callback reports, in order: an acknowledgement, a nack, or the exception it caught. */
  datatype CallbackEvent = Acked | Nacked | CallbackError(error: Exception)

  /** The ack and nack calls a callback made, what escaped it, and what it reported. */
  datatype Disposition = Disposition(acks: nat, nacks: nat, escaped: Option<Exception>, events: seq<CallbackEvent>)

  /**
   * The disposition part of `sync_callback`: `ack()` after success,
   * `nack()` otherwise, and a second chance `nack()` in the `except` branch
   * when the first call raised. An exception from that last `nack()` leaves
   * the callback.
   */
  function Dispose(success: bool, ackFailure: Option<Exception>, nackFailure: Option<Exception>): (d: Disposition)
    ensures d.acks == (if success then 1 else 0)
    ensures !success ==> d.nacks >= 1
    ensures ackFailure.None? && nackFailure.None? ==> d.acks + d.nacks == 1 && d.escaped.None?
    ensures ackFailure.None? && nackFailure.None? ==> d.events == [if success then Acked else Nacked]
    ensures success && ackFailure.Some? ==> d.acks == 1 && d.nacks == 1 && d.events == [CallbackError(ackFailure.value)]
    ensures d.escaped.Some? ==> d.escaped == nackFailure && d.nacks >= 1
    ensures success && ackFailure.None? ==> d == Disposition(1, 0, None, [Acked])
    ensures !success && nackFailure.None? ==> d == Disposition(0, 1, None, [Nacked])
    ensures (if success then ackFailure else nackFailure).Some? ==>
      && d.escaped == nackFailure
      && d.nacks == (if success then 1 else 2)
      && d.events == [CallbackError((if success then ackFailure else nackFailure).value)]
  {
    if success then
      match ackFailure
      case None => Disposition(1, 0, None, [Acked])
      case Some(e) => Disposition(1, 1, nackFailure, [CallbackError(e)])
    else
      match nackFailure
      case None => Disposition(0, 1, None, [Nacked])
      case Some(e) => Disposition(0, 2, nackFailure, [CallbackError(e)])
  }

  /**
   * Applies `Dispose` to the message: calls `ack()`/`nack()` as the callback
   * does and returns the reported events and whatever escaped.
   */
  method Settle(message: Message, success: bool) returns (events: seq<CallbackEvent>, escaped: Option<Exception>)
    modifies message
    ensures message.acks == old(message.acks) + Dispose(success, message.ackFailure, message.nackFailure).acks
    ensures message.nacks == old(message.nacks) + Dispose(success, message.ackFailure, message.nackFailure).nacks
    ensures events == Dispose(success, message.ackFailure, message.nackFailure).events
    ensures escaped == Dispose(success, message.ackFailure, message.nackFailure).escaped
  {
    var raised: Option<Exception>;
    if success {
      raised := message.Ack();
      if raised.None? {
        return [Acked], None;
      }
    } else {
      raised := message.Nack();
      if raised.None? {
        return [Nacked], None;
      }
    }
    events := [CallbackError(raised.value)];
    escaped := message.Nack();
  }
}

=== FILE: subscriber.dfy ===
/**
 * The processing half of the Pub/Sub `Subscriber`: `async_process_message`
 * builds a command from the message and dispatches it, turning any
 * exception into `False`; `sync_callback` acknowledges a processed message
 * and nacks every other one.
 */
module Subscriber {
  import opened Wrappers
  import opened Base
  import opened Dispatch
  import opened Factory
  import opened CreateIncident
  import opened Container
  import opened PubSub
  import PrintingDispatcher

  /** `__name__` of the subscriber module, the name its logger is asked for. */
  const SubscriberLoggerName := "infra.subscriber"

  /** The `max_messages` of the flow control handed to `subscribe`. */
  const FlowControlMaxMessages: nat := 100

  datatype FlowControl = FlowControl(maxMessages: nat)

  /**
   * What `async_process_message` runs inside its `try`: a fresh dispatcher
   * and the factory singleton, `create`, then `dispatch` only when `create`
   * returned a command.
   */
  ghost function Processing(k: AppContainer, decode: Utf8Decoder, data: seq<byte>): (r: Execution)
    ensures r.outcome.Pass? ==> Create(k.commandFactory, decode, data).Ok?
    ensures Create(k.commandFactory, decode, data).Err? ==>
      r.outcome == Fail(Create(k.commandFactory, decode, data).error) && r.trace == []
    ensures Create(k.commandFactory, decode, data).Ok? ==>
      var c := Create(k.commandFactory, decode, data).value;
      r.outcome.Fail? && r.trace == [] <==> TypeOf(c) !in k.handlers || k.handlers[TypeOf(c)] == []
  {
    match Create(k.commandFactory, decode, data)
    case Err(e) => Execution(Fail(e), [])
    case Ok(command) => Dispatched(k.handlers, k.providers, command, ToStdout)
  }

  /** The debug line `async_process_message` writes once it knows the outcome. */
  function ProcessedLine(loggerName: string, messageId: string, outcome: Outcome<Exception>): LogEvent {
    match outcome
    case Pass => Logged(loggerName, Debug, "Message processed: " + messageId)
    case Fail(e) => Logged(loggerName, Debug, "Error processing message " + messageId + ": " + Str(e))
  }

  /** The line `sync_callback` writes for each thing it reports. */
  function CallbackLine(loggerName: string, messageId: string, event: CallbackEvent): LogEvent {
    match event
    case Acked => Logged(loggerName, Debug, "Acknowledged message: " + messageId)
    case Nacked => Logged(loggerName, Debug, "Nacked message: " + messageId)
    case CallbackError(e) => Logged(loggerName, Error, "Error in callback for message " + messageId + ": " + Str(e))
  }

  function CallbackLines(loggerName: string, messageId: string, events: seq<CallbackEvent>): (lines: seq<LogEvent>)
    ensures |lines| == |events|
    ensures forall i :: 0 <= i < |events| ==> lines[i] == CallbackLine(loggerName, messageId, events[i])
  {
    seq(|events|, i requires 0 <= i < |events| => CallbackLine(loggerName, messageId, events[i]))
  }

  class Subscriber {
    const projectId: string
    const subscriptionId: string
    /** Stored, and never read again. */
    const maxMessages: int
    const container: AppContainer
    /** `bytes.decode('utf-8')`, as the factory uses it. */
    const decode: Utf8Decoder
    const logger: Logger

    /** Stores its arguments and takes the module's logger from the container's logger manager. */
    constructor (projectId: string, subscriptionId: string, container: AppContainer, maxMessages: int, decode: Utf8Decoder)
      ensures this.projectId == projectId && this.subscriptionId == subscriptionId
      ensures this.container == container && this.maxMessages == maxMessages && this.decode == decode
      ensures logger == Logger(SubscriberLoggerName)
    {
      this.projectId := projectId;
      this.subscriptionId := subscriptionId;
      this.maxMessages := maxMessages;
      this.container := container;
      this.decode := decode;
      logger := container.loggerManager.GetLogger(SubscriberLoggerName);
    }

    /**
     * The flow control `run_subscriber` subscribes with. It reads no field of
     * the subscriber, so the stored `maxMessages` has no say in it.
     */
    function SubscribeFlowControl(): (fc: FlowControl)
      ensures fc.maxMessages == 100
    {
      FlowControl(FlowControlMaxMessages)
    }

    /**
     * `async_process_message`: true exactly when `create` and `dispatch`
     * both completed; every exception becomes false. What ran is recorded,
     * followed by one debug line naming the message.
     */
    method ProcessMessage(message: Message, out: Recorder) returns (success: bool)
      modifies out
      ensures success <==> Processing(container, decode, message.data).outcome.Pass?
      ensures out.trace == old(out.trace) + Processing(container, decode, message.data).trace +
        [Emitted([ProcessedLine(logger.name, message.messageId, Processing(container, decode, message.data).outcome)])]
    {
      var dispatcher := new PrintingDispatcher.CommandDispatcher(container.handlers);
      var factory := container.commandFactory;
      var created := Create(factory, decode, message.data);
      if created.Err? {
        out.trace := out.trace + [Emitted([ProcessedLine(logger.name, message.messageId, Fail(created.error))])];
        return false;
      }
      var outcome := dispatcher.Dispatch(created.value, container.providers, out);
      out.trace := out.trace + [Emitted([ProcessedLine(logger.name, message.messageId, outcome)])];
      success := outcome.Pass?;
    }

    /**
     * `sync_callback`: process the message, then acknowledge it on success
     * and nack it otherwise, nacking it from the `except` branch when that
     * call raised. Only an exception from that last `nack()` escapes.
     */
    method SyncCallback(message: Message, out: Recorder) returns (escaped: Option<Exception>)
      modifies message, out
      ensures var d := Dispose(Processing(container, decode, message.data).outcome.Pass?, message.ackFailure, message.nackFailure);
        && message.acks == old(message.acks) + d.acks
        && message.nacks == old(message.nacks) + d.nacks
        && escaped == d.escaped
        && out.trace == old(out.trace) + Processing(container, decode, message.data).trace +
          [Emitted([ProcessedLine(logger.name, message.messageId, Processing(container, decode, message.data).outcome)]),
           Emitted(CallbackLines(logger.name, message.messageId, d.events))]
    {
      var success := ProcessMessage(message, out);
      var events;
      events, escaped := Settle(message, success);
      out.trace := out.trace + [Emitted(CallbackLines(logger.name, message.messageId, events))];
    }
  }

  /** A factory error stops `async_process_message` before any dispatch: nothing is called, and the result is false. */
  lemma CreateFailureSkipsDispatch(k: AppContainer, decode: Utf8Decoder, data: seq<byte>)
    requires Create(k.commandFactory, decode, data).Err?
    ensures Processing(k, decode, data) == Execution(Fail(Create(k.commandFactory, decode, data).error), [])
    ensures Calls(Processing(k, decode, data).trace) == []
  {
  }

  /**
   * `async_process_message` succeeds exactly when `create` returns a command
   * whose class has handlers and all of them are created and run without
   * raising.
   */
  lemma ProcessingSucceeds(k: AppContainer, decode: Utf8Decoder, data: seq<byte>)
    ensures Processing(k, decode, data).outcome.Pass? <==>
      && Create(k.commandFactory, decode, data).Ok?
      && var c := Create(k.commandFactory, decode, data).value;
      && TypeOf(c) in k.handlers && k.handlers[TypeOf(c)] != []
      && forall i :: 0 <= i < |k.handlers[TypeOf(c)]| ==> StepPasses(k.handlers[TypeOf(c)][i], k.providers, c)
  {
    if Create(k.commandFactory, decode, data).Ok? {
      DispatchSucceeds(k.handlers, k.providers, Create(k.commandFactory, decode, data).value, ToStdout);
    }
  }

  /**
   * End to end with the application's container: undecodable bytes and an
   * empty payload are nacked (the first before any dispatch, the second by
   * the handler's validation), and any other payload creates the handler
   * once, hands it the decoded text, and is acknowledged — each message
   * getting exactly one disposition while `ack()` and `nack()` do not raise.
   */
  lemma EndToEnd(config: ConfigManager, loggerManager: LoggerManager, decode: Utf8Decoder, data: seq<byte>)
    ensures var k := NewAppContainer(config, loggerManager);
      decode(data).Err? ==>
        && Processing(k, decode, data) == Execution(Fail(UnicodeDecodeError(decode(data).error)), [])
        && Dispose(Processing(k, decode, data).outcome.Pass?, None, None) == Disposition(0, 1, None, [Nacked])
    ensures var k := NewAppContainer(config, loggerManager);
      decode(data) == Ok("") ==>
        && Processing(k, decode, data).outcome == Fail(ValueError(EmptyDescriptionMessage))
        && Calls(Processing(k, decode, data).trace) ==
          [Provide(CreateIncidentHandlerProvider), HandleCall(CreateIncidentHandlerProvider, CreateIncidentCommand(""))]
        && Dispose(Processing(k, decode, data).outcome.Pass?, None, None) == Disposition(0, 1, None, [Nacked])
    ensures var k := NewAppContainer(config, loggerManager);
      decode(data).Ok? && decode(data).value != "" ==>
        && Processing(k, decode, data).outcome == Pass
        && Calls(Processing(k, decode, data).trace) ==
          [Provide(CreateIncidentHandlerProvider), HandleCall(CreateIncidentHandlerProvider, CreateIncidentCommand(decode(data).value))]
        && Dispose(Processing(k, decode, data).outcome.Pass?, None, None) == Disposition(1, 0, None, [Acked])
  {
    var k := NewAppContainer(config, loggerManager);
    if decode(data).Ok? {
      var c := CreateIncidentCommand(decode(data).value);
      var ps := [CreateIncidentHandlerProvider];
      assert Create(k.commandFactory, decode, data) == Ok(c);
      assert k.handlers[TypeOf(c)] == ps;
      CallsOfDispatched(k.handlers, k.providers, c, ToStdout);
      CallsOfContinue(Loop(ps, 0, k.providers, c), ps[0], k.providers, c);
      assert Calls(Loop(ps, 0, k.providers, c).trace) == [];
      ProvidedHandlerIsCreateIncident(config, loggerManager, c);
      assert Loop(ps, 1, k.providers, c).outcome == StepOutcome(ps[0], k.providers, c);
      assert Processing(k, decode, data).outcome == Loop(ps, 1, k.providers, c).outcome;
    }
  }
}

=== FILE: wrappers.dfy ===
/** Small failure-carrying datatypes used across the model. */
module Wrappers {

  /** A value that may be absent (Python's `None`). */
  datatype Option<+T> = None | Some(value: T)

  /** Either a value or the exception that was raised instead. */
  datatype Result<+T, +E> = Ok(value: T) | Err(error: E)

  /** A call that returns nothing: it either completed or raised. */
  datatype Outcome<+E> = Pass | Fail(error: E)
}
